=== FILE: README.md ===
# Compass and wind-rose panels: a Dafny model

This project models the logic of the two Grafana panels of the windrose
plugin: the compass panel, which turns a needle by a ship's heading, and the
wind-rose panel, which draws a ship and true/apparent wind arrows over a
dial. Everything is a pure function over exact `real` degrees:

- `Angles`: JavaScript's truncating `%` (`JsRem`), `Math.round`, congruence
  modulo 360, and the numeric readout `Math.round(((x % 360) + 360) % 360)`.
- `Unwrap`: the angle unwrapper that turns bearings into a cumulative rotation
  (`unwrapAngle` in the wind rose and its inline copy in the compass are the
  same function, `UnwrapAngle`), and the per-bearing state the panels keep in
  a ref (`Tracker`, `Mount`, `Observe`, `Path`).
- `Series`: reading the latest sample of a named field from the query result;
  a sample is a number or null (`None`).
- `Config`: the options record (`needleType` and `rotationMode` as closed
  enums, `None` for unset) and the colour-name defaults.
- `Geometry`: the dial radius, bezel and dial circles, polar projection in
  both y conventions, the tick rings, and the cardinal labels.
- `Compass`: the needle shapes, the needle-style dispatch, and one render.
- `Windrose`: the wind arrows, the mode-dependent layer rotations, and one
  render.

A render is modelled after its effects have run: the tracker is mounted with
the first bearing, or observes the new one, and the view is built from the
updated cumulative value. A render with no series gives `NoData`; the trackers
still update, because the hooks run before the early return.

The model follows the code: the unwrapper reduces the previous value with
JavaScript's truncating `%` (see "Findings"), and widths floored by
`Math.max(2, …)` keep a zero-radius needle from collapsing to a point.

## Model

| member | source | states |
|---|---|---|
| Angles.JsRem | src/components/WindrosePanel.tsx:49 | `x % 360` takes the sign of `x`, lies strictly within one turn of 0, and names the same direction as `x` |
| Angles.Round | src/components/WindrosePanel.tsx:264 | `Math.round` returns the integer within half a unit of its argument, rounding halves up |
| Angles.Normalise | src/components/WindrosePanel.tsx:264 | `((x % 360) + 360) % 360` lies in [0, 360) and names the same direction as `x` |
| Angles.Readout | src/components/CompassPanel.tsx:290 | the readout lies in [0, 360] and is the normalised bearing rounded to the nearest degree, halves up; for whole-degree input it lies in [0, 360) and names the input's direction |
| Angles.ReadoutOfCongruent | src/components/WindrosePanel.tsx:264-294 | two bearings that differ by whole turns normalise and read identically |
| Angles.ReadoutExamples | src/components/WindrosePanel.tsx:264 | -10 reads 350, 725 reads 5, and 359.6 rounds up to 360 |
| Unwrap.Wrap | src/components/WindrosePanel.tsx:51-56 | the correction moves the difference by at most one turn, into [-180, 180] when it started within a turn, and leaves an exact ±180 alone |
| Unwrap.UnwrapAngle | src/components/WindrosePanel.tsx:48-59 | the result names the same direction as `raw` for every input; from a non-negative `prev` with `raw` in [0, 360) it moves at most 180 |
| Unwrap.UnwrapExamples | src/components/WindrosePanel.tsx:48-59 | 350 then 10 gives 370; 10 then 350 gives -10; 0 then 180 gives 180 |
| Unwrap.UnwrapSettled | src/components/WindrosePanel.tsx:48-59 | from any value already naming a bearing in [0, 360), unwrapping that bearing leaves the value unchanged |
| Unwrap.UnwrapIdempotent | src/components/WindrosePanel.tsx:48-66 | unwrapping the same bearing in [0, 360) a second time changes nothing, whatever the starting value |
| Unwrap.UnwrapShortest | src/components/CompassPanel.tsx:38-44 | the floor-modulo update names `raw`'s direction and moves at most 180 from any previous value, for every `raw` in [0, 360) |
| Unwrap.ShortestAgreesOnNonNegative | src/components/CompassPanel.tsx:36-47 | on non-negative previous values the floor-modulo update equals the update as written |
| Unwrap.UnwrapLongStep | src/components/CompassPanel.tsx:40-44 | from -330, bearing 359 moves the as-written update by 329 to -1, while the floor-modulo update moves by -31 |
| Unwrap.UnwrapsDivergeBelowZero | src/components/CompassPanel.tsx:38-44 | from -10, bearing 170 gives 170 as written and -190 with the floor modulo: both half-turn steps, in opposite directions |
| Unwrap.ReadoutsAgree | src/components/CompassPanel.tsx:271-290 | a tracker whose cumulative value names its last bearing reads the same from either |
| Unwrap.Mount | src/components/WindrosePanel.tsx:39-66 | mounting records the seed and a cumulative value naming its direction, equal to the seed when the seed is in [0, 360) |
| Unwrap.Observe | src/components/WindrosePanel.tsx:61-66 | the effect runs only on a changed bearing; the new cumulative value names that bearing and consistency is kept |
| Unwrap.Path | src/components/CompassPanel.tsx:33-47 | a path of n bearings has n + 1 values starting at the tracker's; step i keeps the value exactly when bearing i equals the one before it (the tracker's own for the first step), and otherwise applies the update |
| Unwrap.PathFollowsBearings | src/components/CompassPanel.tsx:36-47 | every cumulative value along a path names the bearing observed to reach it |
| Unwrap.PathStepsShortWhileNonNegative | src/components/CompassPanel.tsx:40-44 | with bearings in [0, 360), every step from a non-negative cumulative value is at most 180 |
| Unwrap.PathReachesLongStep | src/components/CompassPanel.tsx:33-47 | seeded with 10 and fed 350, 200, 30, 359 the cumulative value runs 10, -10, -160, -330, -1 |
| Config.OrElse | src/components/CompassPanel.tsx:51-52 | JavaScript's logical or on an option string: the option when set and non-empty, else the fallback |
| Config.CompassColorNames | src/components/CompassPanel.tsx:50-56 | every one of the five colours is its own option when set and non-empty, else that colour's default name; none is empty |
| Config.WindroseColorNames | src/components/WindrosePanel.tsx:83-90 | every one of the six colours is its own option when set and non-empty, else that colour's default name; none is empty |
| Series.FindField | src/components/WindrosePanel.tsx:26 | finds nothing exactly when no field has the name, else the values of the first field with it |
| Series.FirstWithDataUnique | src/components/WindrosePanel.tsx:25-31 | the scan stops at the first frame with data, so at most one sample qualifies as the latest |
| Series.LatestIn | src/components/WindrosePanel.tsx:25-31 | nothing exactly when no frame's first same-named field has samples, else the last sample of the first frame whose one has, null or not |
| Series.ExtractLatest | src/components/WindrosePanel.tsx:21-32 | null when the field name is unset or empty, when no frame has samples, or when the latest sample is null; otherwise exactly the latest sample |
| Series.LatestOrZero | src/components/CompassPanel.tsx:21-30 | the compass's `rawHeading` and the wind rose's `extractLatest(…) ?? 0`: 0 when the field is unset or empty, has no samples, or ends in null; otherwise exactly the latest sample |
| Geometry.PolarToCartesian | src/components/WindrosePanel.tsx:93-96 | the projected point lies at distance r from the centre; angle 0 lands straight above (wind rose) or below (compass) |
| Geometry.DialRadius | src/components/WindrosePanel.tsx:15-16 | the radius is half the smaller panel side |
| Geometry.DialFace | src/components/WindrosePanel.tsx:187-190 | for a positive radius the dial circle lies strictly inside the bezel, which lies inside the radius |
| Geometry.RenderTicks | src/components/WindrosePanel.tsx:98-116 | exactly `count` slots in index order; slot i is empty exactly when skipped, else at i·360/count degrees with the given radii; drawn angles increase within [0, 360) |
| Geometry.DrawnIsKept | src/components/WindrosePanel.tsx:106-109 | the number of drawn ticks equals the number of indices the skip predicate keeps |
| Geometry.MinorRing | src/components/WindrosePanel.tsx:226 | 48 slots; slot i is empty exactly when i is a multiple of 12, else a tick at 7.5·i degrees from 0.8r to 0.86r, 0.01r wide |
| Geometry.MajorRing | src/components/WindrosePanel.tsx:227 | 8 slots; slot i is empty exactly when labels are shown and i is even, else a tick at 45·i degrees from 0.72r to 0.86r, 0.02r wide |
| Geometry.MinorKeptPerTwelve | src/components/WindrosePanel.tsx:226 | the minor ring's skip keeps 11 of every 12 indices |
| Geometry.RingCounts | src/components/CompassPanel.tsx:258-268 | the 48-slot ring draws 44 ticks; the 8-slot ring draws 4 with labels and 8 without |
| Geometry.TicksClearOfLabels | src/components/WindrosePanel.tsx:226-227 | with labels on, no drawn tick of either ring lies at 0, 90, 180 or 270; without, the major ring marks exactly those |
| Geometry.LabelsClearOfTicks | src/components/CompassPanel.tsx:258-268 | whatever the labels setting, no drawn tick of either ring lies at the angle of a drawn label |
| Geometry.TicksInsideDial | src/components/CompassPanel.tsx:226-268 | for a positive radius every tick runs outward and ends inside the dial circle |
| Geometry.CardinalLabels | src/components/WindrosePanel.tsx:205-224 | when shown, N, E, S, W at 0, 90, 180, 270 degrees and 0.8 of the radius; nothing otherwise |
| Geometry.ShipShape | src/components/WindrosePanel.tsx:119-122 | the ship scales by radius/50 and its stroke is at least 0.5 |
| Compass.DefaultNeedleShape | src/components/CompassPanel.tsx:178-193 | north tip at (0, -0.7r), tail tip at (0, 0.45r), shared symmetric waist; half-width ≥ max(2, 0.06r), notch ≥ max(3, 0.08r), cap radius ≥ max(2, 0.05r), cap stroke ≥ max(1, 0.01r) |
| Compass.DefaultNeedleTipBeyondNotch | src/components/CompassPanel.tsx:179-182 | the north tip lies beyond the notch exactly when the radius exceeds 30/7 |
| Compass.ArrowNeedleShape | src/components/CompassPanel.tsx:91-123 | seven vertices, vertex k mirroring vertex 6-k; tip at (0, -0.7r), head base at (±0.1r, -0.45r), shaft 0.05r either side from -0.45r to 0.45r, so the head is 0.25r long and twice the shaft's width; for r > 0 the tip is the unique topmost vertex; cap radius max(2, 0.025r) and stroke max(1, 0.01r) |
| Compass.SvgNeedleShape | src/components/CompassPanel.tsx:144-153 | the SVG image is a 10 x 50 frame centred on the pivot, scaled by radius/50 |
| Compass.PngNeedleShape | src/components/CompassPanel.tsx:155-176 | the PNG image is a 20 x 50 frame centred on the pivot, scaled by radius/50 |
| Compass.RenderNeedle | src/components/CompassPanel.tsx:195-201 | arrow, ship, svg with a source, png with a source each draw their shape; the two-tone needle is drawn exactly in the fallback cases; an image needle never has an empty source |
| Compass.NeedleFallback | src/components/CompassPanel.tsx:195-201 | unset style, svg with empty source and png with no source all draw what `'needle'` draws |
| Compass.LabelPosition | src/components/CompassPanel.tsx:245-253 | the N label lands at (0, 0.8r + 0.04r), below the centre |
| Compass.NorthLabelOppositeNeedle | src/components/CompassPanel.tsx:59-62 | for r > 0 the N label is below the centre while both needles' north tips point above it |
| Compass.LabelPositionNorthUp | src/components/CompassPanel.tsx:245-253 | with `y = -r cos a` the N label lands above the centre, just beyond the needle's north tip |
| Compass.FaceView | src/components/CompassPanel.tsx:208-295 | the face, the cardinal labels and both tick rings follow the labels flag; the needle has the selected style and turns by the cumulative heading; the readout shows iff enabled, reads the raw heading, and reads the same as the needle rotation |
| Compass.FaceTicksClearOfLabels | src/components/CompassPanel.tsx:245-268 | with labels the compass shows 4 labels and 48 ticks, without them no label and 52 ticks; no drawn tick lies under a label |
| Compass.CompassRender | src/components/CompassPanel.tsx:15-206 | the tracker mounts with the raw heading on the first render and otherwise observes it from the previous tracker, so the needle continues from the previous rotation; it stays consistent, and from a non-negative rotation a heading in [0, 360) moves it at most 180; the view is no-data exactly for an empty series list |
| Windrose.Project | src/components/WindrosePanel.tsx:93-96 | the projected point lies at the point's distance from the centre; angle 0 lands straight above |
| Windrose.WindArrowShape | src/components/WindrosePanel.tsx:136-170 | for an angle given in radians: inner point at 0.4r, label at 0.75r, notch at 0.85r on the arrow's ray, barbs at 0.9r and 0.1 rad either side of it, label dropped 0.025r in a 0.075r font; for r > 0 these are strictly ordered and inside the bezel |
| Windrose.WindArrowSymmetric | src/components/WindrosePanel.tsx:143-153 | drawn at angle 0, the barbs mirror each other about the vertical axis and the inner point and notch sit on it |
| Windrose.Layers | src/components/WindrosePanel.tsx:193-250 | with a mode set, ship and both arrows stand at their own angle relative to the dial; rotate-ship keeps the dial still, rotate-dial keeps the ship up; unset turns neither |
| Windrose.LabelPosition | src/components/WindrosePanel.tsx:214-222 | the N label lands straight above the centre |
| Windrose.Step | src/components/WindrosePanel.tsx:39-80 | the tracker mounts with the bearing when there is none yet, and otherwise observes it from the previous tracker; it stays consistent, and from a non-negative rotation a bearing in [0, 360) moves it at most 180 |
| Windrose.StepAll | src/components/WindrosePanel.tsx:61-80 | all three trackers mount on the first render, and otherwise each observes its own bearing from its previous state; all stay consistent, and each moves at most 180 from a non-negative rotation for a bearing in [0, 360) |
| Windrose.RoseView | src/components/WindrosePanel.tsx:177-299 | face, ship outline, cardinal labels and both tick rings are the shared ones for the labels flag; each arrow is drawn iff its field option is non-empty, with its letter; the layers are exactly `Windrose.Layers` of the mode and the three cumulative bearings; readouts appear per their flags, each reads its tracker's raw bearing, and for consistent trackers the same as the cumulative value |
| Windrose.RoseTicksClearOfLabels | src/components/WindrosePanel.tsx:205-227 | with labels the rose shows 4 labels and 48 ticks, without them no label and 52 ticks; no drawn tick lies under a label |
| Windrose.WindroseRender | src/components/WindrosePanel.tsx:15-175 | the trackers are `Windrose.StepAll` of the previous ones and the extracted bearings, so the layers continue from the previous rotations; they stay consistent, each moves at most 180 from a non-negative rotation for a bearing in [0, 360); the view is no-data exactly for an empty series list |

## Findings

| source | as written | input that shows it | evidently intended | confidence | as-written member | corrected member |
|---|---|---|---|---|---|---|
| src/components/CompassPanel.tsx:38-44 (and src/components/WindrosePanel.tsx:49) | `delta = raw - (prev % 360)` with JavaScript's truncating `%`, under the comment "Shortest rotation path" | seed 10, then bearings 350, 200, 30, 359: the cumulative value runs 10, -10, -160, -330, -1, and the last step turns the needle 329 degrees the long way | reduce `prev` with a floor modulo so that every step is at most 180 degrees | high; not executed | Unwrap.PathReachesLongStep | Unwrap.UnwrapShortest |
| src/components/CompassPanel.tsx:59-62 | `y = r * cos(angle)`, which places angle 0 below the centre | labels shown, radius 100, heading 0: the N label is drawn at (0, 84), below the centre, while the needle's north tip is at (0, -70), above it | `y = -r * cos(angle)`, as in src/components/WindrosePanel.tsx:95 | medium; not executed | Compass.NorthLabelOppositeNeedle | Compass.LabelPositionNorthUp |

The panel models (`Compass.CompassRender`, `Windrose.WindroseRender`,
`Unwrap.Observe`) keep the code's own definitions so that they describe what
the panels draw; the corrected definitions are proved alongside them, and
`Unwrap.ShortestAgreesOnNonNegative` shows the two unwrappers agree for every
non-negative previous value.  Below 0 they can differ even where both step by
at most 180: from -10, bearing 170 gives 170 as written and -190 with the
floor modulo (`Unwrap.UnwrapsDivergeBelowZero`).

## Left out

- React machinery (`useState`, `useRef`, `useEffect`): the ref becomes an explicit `Tracker` passed between renders, and only the settled render after the effects is modelled; the intermediate render before the effects run, which shows the previous cumulative rotation (the seed on the first render) beside the new raw readout, is not.
- SVG/JSX emission, font families and sizes beyond the wind-arrow label, the ship's path string, the unused arrowhead marker and the CSS transitions: presentation only.
- Theme colour resolution (`getColorByName`) and `PanelDataErrorView`: calls into the host libraries; the model stops at colour names and at a `NoData` view.
- Concrete `Math.sin`, `Math.cos` and `Math.PI`: supplied as a `Trig` value of which only sin 0 = 0, cos 0 = 1, oddness, evenness and sin² + cos² = 1 are assumed.
- The compass effect's dependency on `rawHeading` tells a null sample from 0 and re-runs when one becomes the other; both read as 0, and by `Unwrap.UnwrapSettled` re-running on a consistent tracker with the same bearing changes nothing, so the model treats null as 0 there.
- Floating point: all arithmetic is exact; NaN and infinite samples are not modelled.
- src/module.ts: the option-builder chain of the host plugin API; its defaults (`'needle'`, empty image sources) matter only through the fallback cases of `Compass.RenderNeedle`.
- src/types.ts: type declarations only, used as the shape of `Config.PanelOptions`.
- tests/panel.spec.ts: a browser test of rendered text.
- Compass.LabelPosition: states the position of the N label only, because the trigonometric facts assumed do not fix sine and cosine at 90, 180 and 270 degrees.
- Windrose.LabelPosition: likewise states the position of the N label only.

=== FILE: angles.dfy ===
/** Exact-degree arithmetic shared by both panels: JavaScript's truncating
    remainder, `Math.round`, congruence modulo a full turn, and the numeric
    readout that turns any bearing into whole degrees. */
module Angles {

  /** One full turn, in degrees. */
  const Turn: real := 360.0

  /** `y` has no fractional part. */
  predicate IsInt(y: real) {
    y == y.Floor as real
  }

  /** `a` and `b` name the same direction: they differ by whole turns. */
  predicate Congruent(a: real, b: real) {
    IsInt((a - b) / Turn)
  }

  /** Every integer, seen as a real, has no fractional part. */
  lemma WholeIsInt(n: int)
    ensures IsInt(n as real)
  {
  }

  /** Sums and differences of whole numbers are whole. */
  lemma IntSum(a: real, b: real)
    requires IsInt(a) && IsInt(b)
    ensures IsInt(a + b) && IsInt(a - b)
  {
    WholeIsInt(a.Floor + b.Floor);
    WholeIsInt(a.Floor - b.Floor);
  }

  /** Congruence is transitive. */
  lemma CongruentTrans(a: real, b: real, c: real)
    requires Congruent(a, b) && Congruent(b, c)
    ensures Congruent(a, c)
  {
    assert (a - c) / Turn == (a - b) / Turn + (b - c) / Turn;
    IntSum((a - b) / Turn, (b - c) / Turn);
  }

  /** Adding one full turn keeps the direction. */
  lemma OneTurnLater(a: real)
    ensures Congruent(a + Turn, a)
  {
    assert (a + Turn - a) / Turn == 1.0;
  }

  /** Rounding toward zero, as JavaScript's `%` uses for its quotient. */
  function Trunc(x: real): (t: int)
    ensures 0.0 <= x ==> t as real <= x < t as real + 1.0
    ensures x < 0.0 ==> t as real - 1.0 < x <= t as real
  {
    if x >= 0.0 then x.Floor else -((-x).Floor)
  }

  /** JavaScript's `x % 360`: the remainder takes the sign of the dividend
      (so `-10 % 360 == -10`), unlike Dafny's Euclidean `%`. */
  function JsRem(x: real): (r: real)
    ensures 0.0 <= x ==> 0.0 <= r < Turn
    ensures x < 0.0 ==> -Turn < r <= 0.0
    ensures Congruent(r, x)
  {
    var t := Trunc(x / Turn);
    var r := x - Turn * t as real;
    assert (r - x) / Turn == (-t) as real;
    WholeIsInt(-t);
    r
  }

  /** JavaScript's `Math.round`: the nearest integer, halves rounded up. */
  function Round(y: real): (n: int)
    ensures n as real - 0.5 <= y < n as real + 0.5
  {
    (y + 0.5).Floor
  }

  /** Rounding a whole number leaves it unchanged. */
  lemma RoundWhole(y: real)
    requires IsInt(y)
    ensures Round(y) as real == y
  {
    var n := Round(y);
    assert n - 1 < y.Floor < n + 1;
  }

  /** `((x % 360) + 360) % 360`: the direction of `x` as a value in [0, 360). */
  function Normalise(x: real): (r: real)
    ensures 0.0 <= r < Turn
    ensures Congruent(r, x)
  {
    var inner := JsRem(x);
    var r := JsRem(inner + Turn);
    OneTurnLater(inner);
    CongruentTrans(r, inner + Turn, inner);
    CongruentTrans(r, inner, x);
    r
  }

  /** A whole-degree bearing normalises to a whole number of degrees. */
  lemma NormalisePreservesWhole(x: real)
    ensures IsInt(x) ==> IsInt(Normalise(x))
  {
    var r := Normalise(x);
    if IsInt(x) {
      var k := (r - x) / Turn;
      assert r == x + (k.Floor * 360) as real;
      IntSum(x, (k.Floor * 360) as real);
    }
  }

  /** The numeric readout `Math.round(((x % 360) + 360) % 360)` shown under
      the dial.  Whole-degree input reads in [0, 360) and names the same
      direction; fractional input reads as its normalised bearing rounded to
      the nearest degree, halves up, and so can read 360 (359.6 does). */
  function Readout(x: real): (d: int)
    ensures 0 <= d <= 360
    ensures (d as real) - 0.5 <= Normalise(x) < (d as real) + 0.5
    ensures IsInt(x) ==> d < 360 && Congruent(d as real, x)
  {
    var r := Normalise(x);
    NormalisePreservesWhole(x);
    if IsInt(x) then RoundWhole(r); Round(r) else Round(r)
  }

  /** Congruence is symmetric. */
  lemma CongruentSym(a: real, b: real)
    requires Congruent(a, b)
    ensures Congruent(b, a)
  {
    var k := ((a - b) / Turn).Floor;
    assert (b - a) / Turn == (-k) as real;
    WholeIsInt(-k);
  }

  /** Two values in [0, 360) that name the same direction are equal. */
  lemma CongruentInTurn(a: real, b: real)
    requires 0.0 <= a < Turn && 0.0 <= b < Turn
    requires Congruent(a, b)
    ensures a == b
  {
    var k := ((a - b) / Turn).Floor;
    assert -1 < k < 1;
  }

  /** The readout depends only on the direction, not on how many turns the
      value has wound up: any two congruent bearings read the same. */
  lemma ReadoutOfCongruent(a: real, b: real)
    requires Congruent(a, b)
    ensures Normalise(a) == Normalise(b)
    ensures Readout(a) == Readout(b)
  {
    CongruentTrans(Normalise(a), a, b);
    CongruentSym(Normalise(b), b);
    CongruentTrans(Normalise(a), b, Normalise(b));
    CongruentInTurn(Normalise(a), Normalise(b));
  }

  /** Worked readouts: -10 reads 350, 725 reads 5, 359.6 rounds up to 360. */
  lemma ReadoutExamples()
    ensures Readout(-10.0) == 350
    ensures Readout(725.0) == 5
    ensures Readout(359.6) == 360
  {
  }
}

=== FILE: compass.dfy ===
/** The compass panel: one tracked bearing (the heading) turns the needle
    over a fixed dial. */
module Compass {
  import opened Wrappers
  import opened Angles
  import opened Unwrap
  import opened Config
  import opened Series
  import opened Geometry

  /** An axis-aligned rectangle, the frame an image is drawn in. */
  datatype Rect = Rect(x: real, y: real, width: real, height: real)

  /** The two kinds of externally supplied needle image. */
  datatype ImageFormat = SvgImage | PngImage

  /** What the compass draws for its needle, before rotation. */
  datatype NeedleShape =
    | DefaultNeedle(north: seq<Point>, tail: seq<Point>, capRadius: real, capStroke: real)
    | ArrowNeedle(outline: seq<Point>, capRadius: real, stroke: real)
    | ShipNeedle(ship: ShipOutline)
    | ImageNeedle(format: ImageFormat, href: string, scale: real, frame: Rect)

  /** The two-tone needle: a north kite (tip, right waist, notch, left
      waist) and a tail kite of the same shape pointing south, over a centre
      cap.  Widths are floored so that the needle stays visible at small
      sizes: it never collapses to a point, even at radius 0. */
  function DefaultNeedleShape(radius: real): (n: NeedleShape)
    ensures n.DefaultNeedle? && |n.north| == 4 && |n.tail| == 4
    ensures n.north[0] == Point(0.0, -radius * 0.7) && n.tail[0] == Point(0.0, radius * 0.45)
    ensures n.north[1] == n.tail[1] && n.north[3] == n.tail[3]
    ensures n.north[1].y == 0.0 && n.north[3] == Point(-n.north[1].x, 0.0)
    ensures n.north[1].x >= 2.0 && n.north[1].x >= radius * 0.06
    ensures n.north[2].x == 0.0 && n.tail[2] == Point(0.0, -n.north[2].y)
    ensures -n.north[2].y >= 3.0 && -n.north[2].y >= radius * 0.08
    ensures n.capRadius >= 2.0 && n.capRadius >= radius * 0.05
    ensures n.capStroke >= 1.0 && n.capStroke >= radius * 0.01
  {
    var lenN := radius * 0.7;
    var lenS := radius * 0.45;
    var halfW := Max(2.0, radius * 0.06);
    var notch := Max(3.0, radius * 0.08);
    var capR := Max(2.0, radius * 0.05);
    var capStroke := Max(1.0, radius * 0.01);
    DefaultNeedle(
      [Point(0.0, -lenN), Point(halfW, 0.0), Point(0.0, -notch), Point(-halfW, 0.0)],
      [Point(0.0, lenS), Point(halfW, 0.0), Point(0.0, notch), Point(-halfW, 0.0)],
      capR, capStroke)
  }

  /** The north kite only points outward when its tip lies beyond the
      notch, which the floor of 3 on the notch allows only for radii above
      30/7; smaller dials draw the kite folded back on itself. */
  lemma DefaultNeedleTipBeyondNotch(radius: real)
    ensures DefaultNeedleShape(radius).north[0].y < DefaultNeedleShape(radius).north[2].y
      <==> radius > 30.0 / 7.0
  {
  }

  /** The arrow: a seven-vertex outline of shaft and head, symmetric about
      the vertical axis, plus a centre cap.  The shaft is 0.05 of the radius
      either side of the axis and runs to 0.45 of the radius below the
      pivot; the head is 0.25 of the radius long, twice the shaft's width
      at its base; cap and stroke are the larger of a floor and a share of
      the radius. */
  function ArrowNeedleShape(radius: real): (n: NeedleShape)
    ensures n.ArrowNeedle? && |n.outline| == 7
    ensures forall k :: 0 <= k < 7 ==>
      n.outline[k].x == -n.outline[6 - k].x && n.outline[k].y == n.outline[6 - k].y
    ensures n.outline[3] == Point(0.0, -radius * 0.7)
    ensures n.outline[4].x == 2.0 * n.outline[5].x
    ensures radius > 0.0 ==> forall k :: 0 <= k < 7 && k != 3 ==> n.outline[3].y < n.outline[k].y
    ensures n.outline[4] == Point(radius * 0.1, -radius * 0.45)
    ensures n.outline[5] == Point(radius * 0.05, -radius * 0.45)
    ensures n.outline[6] == Point(radius * 0.05, radius * 0.45)
    ensures n.capRadius >= 2.0 && n.capRadius >= radius * 0.025
    ensures n.capRadius == 2.0 || n.capRadius == radius * 0.025
    ensures n.stroke >= 1.0 && n.stroke >= radius * 0.01
    ensures n.stroke == 1.0 || n.stroke == radius * 0.01
  {
    var len := radius * 0.7;
    var headLen := radius * 0.25;
    var halfW := radius * 0.05;
    var tipW := radius * 0.1;
    var capR := Max(2.0, radius * 0.025);
    ArrowNeedle(
      [Point(-halfW, len - headLen), Point(-halfW, -len + headLen), Point(-tipW, -len + headLen),
       Point(0.0, -len),
       Point(tipW, -len + headLen), Point(halfW, -len + headLen), Point(halfW, len - headLen)],
      capR, Max(1.0, radius * 0.01))
  }

  /** A custom SVG needle: a 10 x 50 image centred on the pivot. */
  function SvgNeedleShape(radius: real, href: string): (n: NeedleShape)
    ensures n.ImageNeedle? && n.format == SvgImage && n.href == href
    ensures n.scale == radius / 50.0
    ensures n.frame.x == -n.frame.width / 2.0 && n.frame.y == -n.frame.height / 2.0
    ensures n.frame.width == 10.0 && n.frame.height == 50.0
  {
    ImageNeedle(SvgImage, href, radius / 50.0, Rect(-5.0, -25.0, 10.0, 50.0))
  }

  /** A custom PNG needle: a 20 x 50 image centred on the pivot. */
  function PngNeedleShape(radius: real, href: string): (n: NeedleShape)
    ensures n.ImageNeedle? && n.format == PngImage && n.href == href
    ensures n.scale == radius / 50.0
    ensures n.frame.x == -n.frame.width / 2.0 && n.frame.y == -n.frame.height / 2.0
    ensures n.frame.width == 20.0 && n.frame.height == 50.0
  {
    var pngWidth := 20.0;
    var pngHeight := 50.0;
    ImageNeedle(PngImage, href, radius / 50.0, Rect(-pngWidth / 2.0, -pngHeight / 2.0, pngWidth, pngHeight))
  }

  /** The options fall through to the two-tone needle: style unset or
      `'needle'`, or an image style whose image source is unset or empty. */
  predicate FallsBackToDefault(o: PanelOptions) {
    || o.needleType.None?
    || o.needleType == Some(Needle)
    || (o.needleType == Some(Svg) && !Present(o.needleSvg))
    || (o.needleType == Some(Png) && !Present(o.needlePng))
  }

  /** `renderNeedle`: a total dispatch on the needle style and the
      truthiness of the image sources, falling back to the two-tone
      needle. */
  function RenderNeedle(o: PanelOptions, radius: real): (n: NeedleShape)
    ensures o.needleType == Some(Arrow) ==> n == ArrowNeedleShape(radius)
    ensures o.needleType == Some(Ship) ==> n == ShipNeedle(ShipShape(radius))
    ensures o.needleType == Some(Svg) && Present(o.needleSvg) ==> n == SvgNeedleShape(radius, o.needleSvg.value)
    ensures o.needleType == Some(Png) && Present(o.needlePng) ==> n == PngNeedleShape(radius, o.needlePng.value)
    ensures FallsBackToDefault(o) <==> n == DefaultNeedleShape(radius)
    ensures n.ImageNeedle? ==> n.href != ""
  {
    match o.needleType
    case Some(Arrow) => ArrowNeedleShape(radius)
    case Some(Ship) => ShipNeedle(ShipShape(radius))
    case Some(Svg) =>
      if Present(o.needleSvg) then SvgNeedleShape(radius, o.needleSvg.value) else DefaultNeedleShape(radius)
    case Some(Png) =>
      if Present(o.needlePng) then PngNeedleShape(radius, o.needlePng.value) else DefaultNeedleShape(radius)
    case Some(Needle) => DefaultNeedleShape(radius)
    case None => DefaultNeedleShape(radius)
  }

  /** Leaving the style unset draws the same needle as asking for the
      two-tone needle, and so does choosing an image style with its image
      source left at the empty default. */
  lemma NeedleFallback(o: PanelOptions, radius: real)
    ensures RenderNeedle(o.(needleType := None), radius) == RenderNeedle(o.(needleType := Some(Needle)), radius)
    ensures RenderNeedle(o.(needleType := Some(Svg), needleSvg := Some("")), radius)
         == RenderNeedle(o.(needleType := Some(Needle)), radius)
    ensures RenderNeedle(o.(needleType := Some(Png), needlePng := None), radius)
         == RenderNeedle(o.(needleType := Some(Needle)), radius)
  {
  }

  /** Where the compass draws a cardinal label: projected with `y = r cos a`
      and nudged down by 0.04 of the radius. */
  function LabelPosition(t: Trig, radius: real, l: Label): (p: Point)
    requires ValidTrig(t)
    ensures l.angle == 0.0 ==> p == Point(0.0, l.distance + radius * 0.04)
  {
    var q := PolarToCartesian(ZeroDown, t, l.distance, Radians(t, l.angle));
    Point(q.x, q.y + radius * 0.04)
  }

  /** As written, the compass puts its N label below the centre, while the
      needle's north tip, at rotation 0, points above it: a needle showing
      heading 0 points away from N. */
  lemma NorthLabelOppositeNeedle(t: Trig, radius: real)
    requires ValidTrig(t) && radius > 0.0
    ensures LabelPosition(t, radius, CardinalLabels(true, radius)[0]).y > 0.0
    ensures DefaultNeedleShape(radius).north[0].y < 0.0
    ensures ArrowNeedleShape(radius).outline[3].y < 0.0
  {
  }

  /** The label placement with the wind rose's `y = -r cos a`, as the
      needle geometry evidently expects: N lands above the centre, on the
      side the needle's tip points to at rotation 0, just beyond the tip. */
  function LabelPositionNorthUp(t: Trig, radius: real, l: Label): (p: Point)
    requires ValidTrig(t)
    ensures l.angle == 0.0 ==> p == Point(0.0, -l.distance + radius * 0.04)
    ensures l.angle == 0.0 && l.distance == radius * 0.8 && radius > 0.0 ==>
      p.y < DefaultNeedleShape(radius).north[0].y < 0.0
  {
    var q := PolarToCartesian(ZeroUp, t, l.distance, Radians(t, l.angle));
    Point(q.x, q.y + radius * 0.04)
  }

  /** What one settled render of the compass shows. */
  datatype CompassView =
    | NoData
    | CompassFace(face: Face, labels: seq<Label>, minorTicks: seq<Option<TickSpec>>,
                  majorTicks: seq<Option<TickSpec>>, needleRotation: real, needle: NeedleShape,
                  readout: Option<int>)

  /** The compass drawn for tracker `t` on a dial of the given radius: the
      needle turns by the unwrapped heading, and the readout, when enabled,
      shows the raw heading the tracker last observed, which for a
      consistent tracker names the same direction as the needle. */
  function FaceView(o: PanelOptions, radius: real, t: Tracker): (v: CompassView)
    ensures v.CompassFace? && v.needleRotation == t.cumulative
    ensures v.face == DialFace(radius)
    ensures v.labels == CardinalLabels(Enabled(o.showLabels), radius)
    ensures v.minorTicks == MinorRing(radius) && v.majorTicks == MajorRing(radius, Enabled(o.showLabels))
    ensures v.needle == RenderNeedle(o, radius)
    ensures v.readout.Some? <==> Enabled(o.showHeadingValue)
    ensures v.readout.Some? ==> v.readout.value == Readout(t.observed)
    ensures v.readout.Some? && Consistent(t) ==> v.readout.value == Readout(v.needleRotation)
  {
    var labels := Enabled(o.showLabels);
    ReadoutsAgree(t);
    CompassFace(
      DialFace(radius), CardinalLabels(labels, radius), MinorRing(radius), MajorRing(radius, labels),
      t.cumulative, RenderNeedle(o, radius),
      if Enabled(o.showHeadingValue) then Some(Readout(t.observed)) else None)
  }

  /** With labels shown the dial carries N, E, S and W and 48 drawn
      ticks, none of them under a label; without labels it carries 52
      ticks and no label. */
  lemma FaceTicksClearOfLabels(o: PanelOptions, radius: real, t: Tracker)
    ensures var v := FaceView(o, radius, t);
      && (Enabled(o.showLabels) ==> |v.labels| == 4 && CountDrawn(v.minorTicks) + CountDrawn(v.majorTicks) == 48)
      && (!Enabled(o.showLabels) ==> |v.labels| == 0 && CountDrawn(v.minorTicks) + CountDrawn(v.majorTicks) == 52)
      && (forall i, k :: 0 <= i < |v.majorTicks| && v.majorTicks[i].Some? && 0 <= k < |v.labels| ==>
            v.majorTicks[i].value.angle != v.labels[k].angle)
      && (forall i, k :: 0 <= i < |v.minorTicks| && v.minorTicks[i].Some? && 0 <= k < |v.labels| ==>
            v.minorTicks[i].value.angle != v.labels[k].angle)
  {
    RingCounts(radius);
    LabelsClearOfTicks(radius, Enabled(o.showLabels));
  }

  /** One render of the compass, after its effect has run: the tracker
      mounts with the heading on the first render and observes it on later
      ones, and it does so even when there is no data to draw. */
  function CompassRender(o: PanelOptions, series: seq<Frame>, width: real, height: real,
                         prior: Option<Tracker>): (res: (Tracker, CompassView))
    ensures res.0.observed == LatestOrZero(series, o.headingField)
    ensures prior.None? ==> res.0 == Mount(LatestOrZero(series, o.headingField))
    ensures prior.Some? ==> res.0 == Observe(prior.value, LatestOrZero(series, o.headingField))
    ensures (prior.None? || Consistent(prior.value)) ==> Consistent(res.0)
    ensures prior.Some? && 0.0 <= prior.value.cumulative && 0.0 <= LatestOrZero(series, o.headingField) < Turn ==>
      -HalfTurn <= res.0.cumulative - prior.value.cumulative <= HalfTurn
    ensures res.1.NoData? <==> |series| == 0
    ensures res.1.CompassFace? ==> res.1 == FaceView(o, DialRadius(width, height), res.0)
  {
    var heading := LatestOrZero(series, o.headingField);
    var t := if prior.None? then Mount(heading) else Observe(prior.value, heading);
    if |series| == 0 then (t, NoData) else (t, FaceView(o, DialRadius(width, height), t))
  }
}

=== FILE: config.dfy ===
/** The panel options record shared by both panels, and the JavaScript
    truthiness rules the panels apply to it. */
module Config {
  import opened Wrappers

  /** The needle styles the compass offers; unset is `None`. */
  datatype NeedleType = Needle | Arrow | Ship | Svg | Png

  /** The wind rose's rotation modes: `'rotate-ship'` turns the ship over a
      fixed dial, `'rotate-dial'` turns the dial under a fixed ship.  Any
      other string behaves like unset, which is `None`. */
  datatype RotationMode = RotateShip | RotateDial

  /** Every option may be left unset. */
  datatype PanelOptions = PanelOptions(
    headingField: Option<string>,
    textColor: Option<string>,
    needleColor: Option<string>,
    tailColor: Option<string>,
    dialColor: Option<string>,
    bezelColor: Option<string>,
    showLabels: Option<bool>,
    showHeadingValue: Option<bool>,
    needleType: Option<NeedleType>,
    needleSvg: Option<string>,
    needlePng: Option<string>,
    // read by the wind rose only
    rotationMode: Option<RotationMode>,
    trueWindField: Option<string>,
    apparentWindField: Option<string>,
    shipColor: Option<string>,
    trueWindColor: Option<string>,
    apparentWindColor: Option<string>)

  /** A string option is truthy when it is set and non-empty. */
  predicate Present(s: Option<string>) {
    s.Some? && s.value != ""
  }

  /** A boolean option is truthy only when set to true. */
  predicate Enabled(b: Option<bool>) {
    b == Some(true)
  }

  /** `s || fallback`: the option when truthy, else the fallback. */
  function OrElse(s: Option<string>, fallback: string): (r: string)
    ensures Present(s) ==> r == s.value
    ensures !Present(s) ==> r == fallback
  {
    if Present(s) then s.value else fallback
  }

  /** Colour names handed to the theme for the compass. */
  datatype CompassColors = CompassColors(text: string, needle: string, tail: string, dial: string, bezel: string)

  /** Colour names handed to the theme for the wind rose. */
  datatype WindroseColors = WindroseColors(text: string, dial: string, bezel: string, ship: string, trueWind: string, apparentWind: string)

  /** The compass's colour names: each option when set and non-empty, else
      its default; so the theme is never asked for an empty name. */
  function CompassColorNames(o: PanelOptions): (c: CompassColors)
    ensures c.text != "" && c.needle != "" && c.tail != "" && c.dial != "" && c.bezel != ""
    ensures c.text == (if Present(o.textColor) then o.textColor.value else "#111827")
    ensures c.needle == (if Present(o.needleColor) then o.needleColor.value else "red")
    ensures c.tail == (if Present(o.tailColor) then o.tailColor.value else "gray")
    ensures c.dial == (if Present(o.dialColor) then o.dialColor.value else "white")
    ensures c.bezel == (if Present(o.bezelColor) then o.bezelColor.value else "#c6c6c6")
  {
    CompassColors(
      OrElse(o.textColor, "#111827"),
      OrElse(o.needleColor, "red"),
      OrElse(o.tailColor, "gray"),
      OrElse(o.dialColor, "white"),
      OrElse(o.bezelColor, "#c6c6c6"))
  }

  /** The wind rose's colour names, on the same rule. */
  function WindroseColorNames(o: PanelOptions): (c: WindroseColors)
    ensures c.text != "" && c.dial != "" && c.bezel != "" && c.ship != ""
    ensures c.trueWind != "" && c.apparentWind != ""
    ensures c.text == (if Present(o.textColor) then o.textColor.value else "#111827")
    ensures c.dial == (if Present(o.dialColor) then o.dialColor.value else "white")
    ensures c.bezel == (if Present(o.bezelColor) then o.bezelColor.value else "#c6c6c6")
    ensures c.ship == (if Present(o.shipColor) then o.shipColor.value else "red")
    ensures c.trueWind == (if Present(o.trueWindColor) then o.trueWindColor.value else "blue")
    ensures c.apparentWind == (if Present(o.apparentWindColor) then o.apparentWindColor.value else "yellow")
  {
    WindroseColors(
      OrElse(o.textColor, "#111827"),
      OrElse(o.dialColor, "white"),
      OrElse(o.bezelColor, "#c6c6c6"),
      OrElse(o.shipColor, "red"),
      OrElse(o.trueWindColor, "blue"),
      OrElse(o.apparentWindColor, "yellow"))
  }
}

=== FILE: geometry.dfy ===
/** Polar geometry shared by both panels: the dial size, the projection
    from polar to screen coordinates, the bezel and dial circles, the tick
    rings and the cardinal labels.  Screen y grows downward (SVG). */
module Geometry {
  import opened Wrappers

  /** A point in the panel's centred coordinate frame. */
  datatype Point = Point(x: real, y: real)

  /** The sign the projection gives the y term: the wind rose uses
      `y = -r cos a`, which puts angle 0 above the centre; the compass uses
      `y = r cos a`, which puts it below. */
  datatype YAxis = ZeroUp | ZeroDown

  /** Sine and cosine over radians, and the value of pi, as supplied by the
      host's `Math`; only the facts in `ValidTrig` are assumed of them. */
  datatype Trig = Trig(pi: real, sin: real -> real, cos: real -> real)

  /** The facts the model relies on: the values at 0, and sine odd, cosine
      even, with sin^2 + cos^2 = 1. */
  ghost predicate ValidTrig(t: Trig) {
    && t.pi > 0.0
    && t.sin(0.0) == 0.0 && t.cos(0.0) == 1.0
    && (forall a :: t.sin(a) + t.sin(-a) == 0.0)
    && (forall a :: t.cos(a) == t.cos(-a))
    && (forall a :: t.sin(a) * t.sin(a) + t.cos(a) * t.cos(a) == 1.0)
  }

  /** `(deg * Math.PI) / 180`. */
  function Radians(t: Trig, deg: real): real {
    deg * t.pi / 180.0
  }

  /** `polarToCartesian(r, a)` in either panel's convention.  The point lies
      at distance |r| from the centre, and at angle 0 it sits straight above
      (wind rose) or straight below (compass) the centre. */
  function PolarToCartesian(axis: YAxis, t: Trig, r: real, rad: real): (p: Point)
    requires ValidTrig(t)
    ensures p.x * p.x + p.y * p.y == r * r
    ensures rad == 0.0 ==> p.x == 0.0 && (if axis == ZeroUp then p.y == -r else p.y == r)
  {
    var s := t.sin(rad);
    var c := t.cos(rad);
    var y := if axis == ZeroUp then -r * c else r * c;
    assert (r * s) * (r * s) + y * y == r * r * (s * s + c * c);
    Point(r * s, y)
  }

  /** The dial radius, `Math.min(width, height) / 2`. */
  function DialRadius(width: real, height: real): (r: real)
    ensures r <= width / 2.0 && r <= height / 2.0
    ensures r == width / 2.0 || r == height / 2.0
  {
    (if width <= height then width else height) / 2.0
  }

  /** The bezel and dial circles drawn first, with their stroke widths. */
  datatype Face = Face(bezelRadius: real, bezelStroke: real, dialRadius: real, dialStroke: real)

  /** Both panels draw the bezel at 0.98 and the dial at 0.88 of the radius:
      for a positive radius the dial lies strictly inside the bezel. */
  function DialFace(radius: real): (f: Face)
    ensures radius > 0.0 ==> 0.0 < f.dialRadius < f.bezelRadius < radius
    ensures radius == 0.0 ==> f == Face(0.0, 0.0, 0.0, 0.0)
  {
    Face(radius * 0.98, radius * 0.01, radius * 0.88, radius * 0.015)
  }

  /** One radial tick: its slot index, its angle in degrees, the radii of
      its inner and outer ends, and its stroke width. */
  datatype TickSpec = TickSpec(index: nat, angle: real, inner: real, outer: real, strokeWidth: real)

  /** `renderTicks`: `count` slots in index order; slot `i` is empty when
      `skip(i)` holds and otherwise holds the tick at `i * (360 / count)`
      degrees spanning the two fractions of the radius. */
  function RenderTicks(radius: real, count: nat, innerFrac: real, outerFrac: real,
                       skip: nat -> bool, strokeFrac: real): (slots: seq<Option<TickSpec>>)
    ensures |slots| == count
    ensures forall i :: 0 <= i < count ==> (slots[i].None? <==> skip(i))
    ensures forall i :: 0 <= i < count && slots[i].Some? ==>
      && slots[i].value.index == i
      && slots[i].value.angle == i as real * (360.0 / count as real)
      && slots[i].value.inner == radius * innerFrac
      && slots[i].value.outer == radius * outerFrac
      && slots[i].value.strokeWidth == radius * strokeFrac
    ensures forall i, j :: 0 <= i < j < count && slots[i].Some? && slots[j].Some? ==>
      0.0 <= slots[i].value.angle < slots[j].value.angle < 360.0
  {
    seq(count, i requires 0 <= i < count =>
      if skip(i) then None
      else Some(TickSpec(i, i as real * (360.0 / count as real), radius * innerFrac, radius * outerFrac, radius * strokeFrac)))
  }

  /** The number of ticks actually drawn. */
  function CountDrawn(slots: seq<Option<TickSpec>>): nat {
    if |slots| == 0 then 0
    else CountDrawn(slots[..|slots| - 1]) + (if slots[|slots| - 1].Some? then 1 else 0)
  }

  /** The number of indices below `n` that `skip` keeps. */
  function Kept(n: nat, skip: nat -> bool): nat {
    if n == 0 then 0 else Kept(n - 1, skip) + (if skip(n - 1) then 0 else 1)
  }

  /** A slot sequence that is empty exactly where `skip` holds draws as many
      ticks as `skip` keeps indices. */
  lemma {:induction false} DrawnIsKept(slots: seq<Option<TickSpec>>, skip: nat -> bool)
    requires forall i :: 0 <= i < |slots| ==> (slots[i].None? <==> skip(i))
    ensures CountDrawn(slots) == Kept(|slots|, skip)
    decreases |slots|
  {
    if |slots| > 0 {
      DrawnIsKept(slots[..|slots| - 1], skip);
    }
  }

  /** The minor ring leaves out every twelfth slot, where a compass point
      falls. */
  function MinorSkip(i: nat): bool {
    i % 12 == 0
  }

  /** The major ring leaves out the cardinal slots when the N/E/S/W labels
      are shown. */
  function MajorSkip(showLabels: bool): nat -> bool {
    i => showLabels && i in {0, 2, 4, 6}
  }

  /** `renderTicks(48, 0.8, 0.86, i => i % 12 === 0)`. */
  function MinorRing(radius: real): (s: seq<Option<TickSpec>>)
    ensures |s| == 48
    ensures forall i :: 0 <= i < 48 ==> (s[i].None? <==> i % 12 == 0)
    ensures forall i :: 0 <= i < 48 && s[i].Some? ==>
      s[i].value == TickSpec(i, i as real * 7.5, radius * 0.8, radius * 0.86, radius * 0.01)
  {
    RenderTicks(radius, 48, 0.8, 0.86, MinorSkip, 0.01)
  }

  /** `renderTicks(8, 0.72, 0.86, i => !!showLabels && [0,2,4,6].includes(i), …, 0.02)`. */
  function MajorRing(radius: real, showLabels: bool): (s: seq<Option<TickSpec>>)
    ensures |s| == 8
    ensures forall i :: 0 <= i < 8 ==> (s[i].None? <==> showLabels && i % 2 == 0)
    ensures forall i :: 0 <= i < 8 && s[i].Some? ==>
      s[i].value == TickSpec(i, i as real * 45.0, radius * 0.72, radius * 0.86, radius * 0.02)
  {
    RenderTicks(radius, 8, 0.72, 0.86, MajorSkip(showLabels), 0.02)
  }

  /** Twelve consecutive indices starting at a multiple of 12 hold exactly
      one the minor ring skips. */
  lemma {:induction false} MinorKeptPerTwelve(k: nat)
    ensures Kept(12 * k, MinorSkip) == 11 * k
  {
    if k > 0 {
      MinorKeptPerTwelve(k - 1);
      var b := 12 * (k - 1);
      assert MinorSkip(b) && !MinorSkip(b + 1) && !MinorSkip(b + 2) && !MinorSkip(b + 3);
      assert !MinorSkip(b + 4) && !MinorSkip(b + 5) && !MinorSkip(b + 6) && !MinorSkip(b + 7);
      assert !MinorSkip(b + 8) && !MinorSkip(b + 9) && !MinorSkip(b + 10) && !MinorSkip(b + 11);
      assert Kept(b + 1, MinorSkip) == Kept(b, MinorSkip);
      assert Kept(b + 2, MinorSkip) == Kept(b, MinorSkip) + 1;
      assert Kept(b + 3, MinorSkip) == Kept(b, MinorSkip) + 2;
      assert Kept(b + 4, MinorSkip) == Kept(b, MinorSkip) + 3;
      assert Kept(b + 5, MinorSkip) == Kept(b, MinorSkip) + 4;
      assert Kept(b + 6, MinorSkip) == Kept(b, MinorSkip) + 5;
      assert Kept(b + 7, MinorSkip) == Kept(b, MinorSkip) + 6;
      assert Kept(b + 8, MinorSkip) == Kept(b, MinorSkip) + 7;
      assert Kept(b + 9, MinorSkip) == Kept(b, MinorSkip) + 8;
      assert Kept(b + 10, MinorSkip) == Kept(b, MinorSkip) + 9;
      assert Kept(b + 11, MinorSkip) == Kept(b, MinorSkip) + 10;
    }
  }

  /** The minor ring draws 44 of its 48 slots; the major ring draws 4 of
      its 8 with labels shown and all 8 without. */
  lemma RingCounts(radius: real)
    ensures CountDrawn(MinorRing(radius)) == 44
    ensures CountDrawn(MajorRing(radius, true)) == 4
    ensures CountDrawn(MajorRing(radius, false)) == 8
  {
    DrawnIsKept(MinorRing(radius), MinorSkip);
    MinorKeptPerTwelve(4);
    DrawnIsKept(MajorRing(radius, true), MajorSkip(true));
    DrawnIsKept(MajorRing(radius, false), MajorSkip(false));
    var on := MajorSkip(true);
    assert on(0) && !on(1) && on(2) && !on(3) && on(4) && !on(5) && on(6) && !on(7);
    var off := MajorSkip(false);
    assert !off(0) && !off(1) && !off(2) && !off(3) && !off(4) && !off(5) && !off(6) && !off(7);
  }

  /** The four compass points, where the N/E/S/W labels stand. */
  predicate IsCardinal(angle: real) {
    angle == 0.0 || angle == 90.0 || angle == 180.0 || angle == 270.0
  }

  /** With labels shown, no tick of either ring is drawn at a compass point,
      so no tick runs into a label; without them only the major ring
      marks the compass points. */
  lemma TicksClearOfLabels(radius: real)
    ensures forall i :: 0 <= i < 48 && MinorRing(radius)[i].Some? ==>
      !IsCardinal(MinorRing(radius)[i].value.angle)
    ensures forall i :: 0 <= i < 8 && MajorRing(radius, true)[i].Some? ==>
      !IsCardinal(MajorRing(radius, true)[i].value.angle)
    ensures forall i :: 0 <= i < 8 && MajorRing(radius, false)[i].Some? ==>
      (IsCardinal(MajorRing(radius, false)[i].value.angle) <==> i % 2 == 0)
  {
  }

  /** Whatever the labels setting, no drawn tick of either ring sits at the
      angle of a drawn compass-point label. */
  lemma LabelsClearOfTicks(radius: real, show: bool)
    ensures forall i, k :: 0 <= i < 48 && MinorRing(radius)[i].Some? && 0 <= k < |CardinalLabels(show, radius)| ==>
      MinorRing(radius)[i].value.angle != CardinalLabels(show, radius)[k].angle
    ensures forall i, k :: 0 <= i < 8 && MajorRing(radius, show)[i].Some? && 0 <= k < |CardinalLabels(show, radius)| ==>
      MajorRing(radius, show)[i].value.angle != CardinalLabels(show, radius)[k].angle
  {
    TicksClearOfLabels(radius);
  }

  /** Ticks of both rings end inside the dial circle. */
  lemma TicksInsideDial(radius: real, showLabels: bool)
    requires radius > 0.0
    ensures forall i :: 0 <= i < 48 && MinorRing(radius)[i].Some? ==>
      0.0 < MinorRing(radius)[i].value.inner < MinorRing(radius)[i].value.outer < DialFace(radius).dialRadius
    ensures forall i :: 0 <= i < 8 && MajorRing(radius, showLabels)[i].Some? ==>
      0.0 < MajorRing(radius, showLabels)[i].value.inner < MajorRing(radius, showLabels)[i].value.outer < DialFace(radius).dialRadius
  {
  }

  /** A cardinal label: its letter, its angle in degrees and its distance
      from the centre. */
  datatype Label = Label(text: string, angle: real, distance: real)

  /** N, E, S and W at 0.8 of the radius, a quarter turn apart, when labels
      are shown; nothing otherwise. */
  function CardinalLabels(show: bool, radius: real): (ls: seq<Label>)
    ensures show ==> |ls| == 4 && forall i :: 0 <= i < 4 ==>
      ls[i].angle == i as real * 90.0 && IsCardinal(ls[i].angle) && ls[i].distance == radius * 0.8
    ensures show ==> ls[0].text == "N" && ls[1].text == "E" && ls[2].text == "S" && ls[3].text == "W"
    ensures !show ==> ls == []
  {
    if !show then []
    else [Label("N", 0.0, radius * 0.8), Label("E", 90.0, radius * 0.8),
          Label("S", 180.0, radius * 0.8), Label("W", 270.0, radius * 0.8)]
  }

  /** The larger of two values, `Math.max`. */
  function Max(a: real, b: real): (m: real)
    ensures m >= a && m >= b && (m == a || m == b)
  {
    if a >= b then a else b
  }

  /** The ship silhouette's drawing parameters: the fixed 45-unit outline
      scaled to 0.9 of the radius, and its stroke width. */
  datatype ShipOutline = ShipOutline(scale: real, stroke: real)

  /** Both panels draw the ship at scale `0.9 r / 45`, which is `r / 50`,
      with a stroke of at least half a pixel. */
  function ShipShape(radius: real): (s: ShipOutline)
    ensures s.scale == radius / 50.0
    ensures s.stroke >= 0.5 && s.stroke >= radius * 0.005
  {
    var shipHeight := 45.0;
    ShipOutline((radius * 0.9) / shipHeight, Max(0.5, radius * 0.005))
  }
}

=== FILE: series.dfy ===
/** Reading the latest value of a named field out of the query result: a
    sequence of series (data frames), each a sequence of named fields. */
module Series {
  import opened Wrappers
  import opened Config

  /** One sample of a field: a number, or `None` for a null entry. */
  type Sample = Option<real>

  /** A named column of samples. */
  type Field = (string, seq<Sample>)

  /** One data frame. */
  type Frame = seq<Field>

  /** `series.fields.find(f => f.name === name)`: the values of the first
      field called `name`, if there is one. */
  function FindField(fields: Frame, name: string): (r: Option<seq<Sample>>)
    ensures r.None? <==> forall k :: 0 <= k < |fields| ==> fields[k].0 != name
    ensures r.Some? ==> (exists k :: 0 <= k < |fields| && fields[k] == (name, r.value)
                                    && forall j :: 0 <= j < k ==> fields[j].0 != name)
  {
    if |fields| == 0 then None
    else if fields[0].0 == name then Some(fields[0].1)
    else
      var r := FindField(fields[1..], name);
      assert forall k :: 0 < k < |fields| ==> fields[k] == fields[1..][k - 1];
      r
  }

  /** The frame's first field called `name` exists and holds samples. */
  predicate HasData(fields: Frame, name: string) {
    var f := FindField(fields, name);
    f.Some? && |f.value| > 0
  }

  /** The last element of a non-empty sequence. */
  function Last(s: seq<Sample>): Sample
    requires |s| > 0
  {
    s[|s| - 1]
  }

  /** Some frame holds data for `name`, none before it does, and `v` is
      that frame's last sample. */
  predicate FirstWithData(series: seq<Frame>, name: string, v: Sample) {
    exists i :: 0 <= i < |series| && HasData(series[i], name)
                && (forall j :: 0 <= j < i ==> !HasData(series[j], name))
                && v == Last(FindField(series[i], name).value)
  }

  /** Only one sample can be the last sample of the first frame with data. */
  lemma FirstWithDataUnique(series: seq<Frame>, name: string, v: Sample, w: Sample)
    requires FirstWithData(series, name, v) && FirstWithData(series, name, w)
    ensures v == w
  {
    var i :| 0 <= i < |series| && HasData(series[i], name)
             && (forall j :: 0 <= j < i ==> !HasData(series[j], name))
             && v == Last(FindField(series[i], name).value);
    var k :| 0 <= k < |series| && HasData(series[k], name)
             && (forall j :: 0 <= j < k ==> !HasData(series[j], name))
             && w == Last(FindField(series[k], name).value);
    assert !(i < k) && !(k < i);
  }

  /** The last sample of the first frame in which `HasData` holds. */
  function LatestIn(series: seq<Frame>, name: string): (r: Option<Sample>)
    ensures r.None? <==> forall i :: 0 <= i < |series| ==> !HasData(series[i], name)
    ensures r.Some? ==> FirstWithData(series, name, r.value)
  {
    if |series| == 0 then None
    else if HasData(series[0], name) then Some(Last(FindField(series[0], name).value))
    else
      var r := LatestIn(series[1..], name);
      assert forall i :: 0 < i < |series| ==> series[i] == series[1..][i - 1];
      r
  }

  /** The wind rose's `extractLatest`: null when the field option is unset
      or empty or no frame holds samples for it, and otherwise the last
      sample of the first frame whose first same-named field is non-empty,
      which may itself be null. */
  function ExtractLatest(series: seq<Frame>, fieldName: Option<string>): (r: Option<real>)
    ensures !Present(fieldName) ==> r.None?
    ensures Present(fieldName) && (forall i :: 0 <= i < |series| ==> !HasData(series[i], fieldName.value)) ==> r.None?
    ensures Present(fieldName) && FirstWithData(series, fieldName.value, None) ==> r.None?
    ensures forall v :: Present(fieldName) && FirstWithData(series, fieldName.value, Some(v)) ==> r == Some(v)
  {
    if !Present(fieldName) then None
    else
      var latest := LatestIn(series, fieldName.value);
      if latest.None? then None
      else
        forall v | FirstWithData(series, fieldName.value, Some(v)) ensures latest.value == Some(v) {
          FirstWithDataUnique(series, fieldName.value, latest.value, Some(v));
        }
        if FirstWithData(series, fieldName.value, None) then FirstWithDataUnique(series, fieldName.value, latest.value, None); latest.value
        else latest.value
  }

  /** The bearing both panels compute with: `extractLatest(field) ?? 0` in
      the wind rose, and the compass's `rawHeading`, whose null results
      JavaScript arithmetic reads as 0.  It is 0 unless the first frame with
      data for the field ends in a number, and then it is that number. */
  function LatestOrZero(series: seq<Frame>, fieldName: Option<string>): (b: real)
    ensures !Present(fieldName) ==> b == 0.0
    ensures Present(fieldName) && (forall i :: 0 <= i < |series| ==> !HasData(series[i], fieldName.value)) ==> b == 0.0
    ensures Present(fieldName) && FirstWithData(series, fieldName.value, None) ==> b == 0.0
    ensures forall v :: Present(fieldName) && FirstWithData(series, fieldName.value, Some(v)) ==> b == v
  {
    ExtractLatest(series, fieldName).GetOr(0.0)
  }
}

=== FILE: unwrap.dfy ===
/** Angle unwrapping: turning a stream of bearings into an unbounded
    cumulative rotation, so that a CSS rotation transition animates across
    north instead of spinning back the long way.

    `UnwrapAngle` is the code as written in both panels (WindrosePanel's
    `unwrapAngle` and CompassPanel's inline copy).  It uses JavaScript's
    truncating `%`, so its half-turn bound only holds while the cumulative
    value is non-negative; `UnwrapShortest` is the floor-modulo variant that
    keeps the bound for every previous value. */
module Unwrap {
  import opened Angles

  /** Half a turn: the largest step the unwrapper means to take. */
  const HalfTurn: real := 180.0

  /** Shift `delta` by at most one turn into [-180, 180], leaving an exact
      +180 or -180 alone (the source tests `> 180` and `< -180`). */
  function Wrap(delta: real): (d: real)
    ensures -Turn < delta < Turn ==> -HalfTurn <= d <= HalfTurn
    ensures d == delta || d == delta - Turn || d == delta + Turn
    ensures -HalfTurn <= delta <= HalfTurn ==> d == delta
  {
    var d1 := if delta > HalfTurn then delta - Turn else delta;
    if d1 < -HalfTurn then d1 + Turn else d1
  }

  /** Shifting by at most one turn keeps the direction. */
  lemma ShiftKeepsDirection(a: real, b: real)
    requires b == a || b == a - Turn || b == a + Turn
    ensures Congruent(b, a)
  {
  }

  /** `prev + Wrap(raw - prev % 360)`, the update as written.  The result
      always names the same direction as `raw`; the step from `prev` is at
      most half a turn when `prev` is non-negative and `raw` lies in
      [0, 360). */
  function UnwrapAngle(prev: real, raw: real): (next: real)
    ensures Congruent(next, raw)
    ensures 0.0 <= prev && 0.0 <= raw < Turn ==> -HalfTurn <= next - prev <= HalfTurn
  {
    var rem := JsRem(prev);
    var next := prev + Wrap(raw - rem);
    // next - raw == (prev - rem) + (Wrap(raw - rem) - (raw - rem))
    ShiftKeepsDirection(raw - rem, Wrap(raw - rem));
    assert Congruent(next - raw + rem, prev) by {
      assert (next - raw + rem - prev) / Turn == (Wrap(raw - rem) - (raw - rem)) / Turn;
    }
    CongruentSym(rem, prev);
    CongruentTrans(next - raw + rem, prev, rem);
    assert (next - raw + rem - rem) / Turn == (next - raw) / Turn;
    next
  }

  /** A cumulative value that already names the bearing `raw` in [0, 360)
      is left where it is, however many turns it has wound up. */
  lemma UnwrapSettled(c: real, raw: real)
    requires 0.0 <= raw < Turn
    requires Congruent(c, raw)
    ensures UnwrapAngle(c, raw) == c
  {
    var rem := JsRem(c);
    CongruentTrans(rem, c, raw);
    if c >= 0.0 || rem == 0.0 {
      CongruentInTurn(rem, raw);
    } else {
      OneTurnLater(rem);
      CongruentSym(rem + Turn, rem);
      CongruentTrans(rem + Turn, rem, raw);
      CongruentInTurn(rem + Turn, raw);
    }
  }

  /** Worked cases: crossing north forwards, crossing north backwards, and
      the exact half-turn that is left unadjusted. */
  lemma UnwrapExamples()
    ensures UnwrapAngle(350.0, 10.0) == 370.0
    ensures UnwrapAngle(10.0, 350.0) == -10.0
    ensures UnwrapAngle(0.0, 180.0) == 180.0
  {
  }

  /** Repeating an update changes nothing: once the cumulative value names
      the direction `raw`, unwrapping `raw` again returns it unchanged. */
  lemma UnwrapIdempotent(prev: real, raw: real)
    requires 0.0 <= raw < Turn
    ensures UnwrapAngle(UnwrapAngle(prev, raw), raw) == UnwrapAngle(prev, raw)
  {
    UnwrapSettled(UnwrapAngle(prev, raw), raw);
  }

  /** The floor-modulo update: like `UnwrapAngle` but reducing `prev` into
      [0, 360) before taking the difference.  Every step is at most half a
      turn, whatever the sign of `prev`. */
  function UnwrapShortest(prev: real, raw: real): (next: real)
    ensures Congruent(next, raw)
    ensures 0.0 <= raw < Turn ==> -HalfTurn <= next - prev <= HalfTurn
  {
    var rem := Normalise(prev);
    var next := prev + Wrap(raw - rem);
    ShiftKeepsDirection(raw - rem, Wrap(raw - rem));
    assert Congruent(next - raw + rem, prev) by {
      assert (next - raw + rem - prev) / Turn == (Wrap(raw - rem) - (raw - rem)) / Turn;
    }
    CongruentSym(rem, prev);
    CongruentTrans(next - raw + rem, prev, rem);
    assert (next - raw + rem - rem) / Turn == (next - raw) / Turn;
    next
  }

  /** On the non-negative cumulative values the floor-modulo update agrees
      with the update as written. */
  lemma ShortestAgreesOnNonNegative(prev: real, raw: real)
    requires 0.0 <= prev
    ensures UnwrapShortest(prev, raw) == UnwrapAngle(prev, raw)
  {
  }

  /** The as-written update, fed bearings in [0, 360), takes a 329-degree
      step once the cumulative value has gone negative: from -330, the
      bearing 359 leads to -1, where the floor-modulo update
      steps back 31 degrees to -361. */
  lemma UnwrapLongStep()
    ensures UnwrapAngle(-330.0, 359.0) == -1.0
    ensures UnwrapAngle(-330.0, 359.0) - (-330.0) == 329.0
    ensures UnwrapShortest(-330.0, 359.0) == -361.0
  {
  }

  /** Below 0 the two updates can part even where both keep within half a
      turn: from -10, bearing 170 is reached by +180 as written and by -180
      with the floor modulo. */
  lemma UnwrapsDivergeBelowZero()
    ensures UnwrapAngle(-10.0, 170.0) == 170.0
    ensures UnwrapShortest(-10.0, 170.0) == -190.0
  {
    assert Trunc(-10.0 / Turn) == 0;
    assert JsRem(-10.0) == -10.0;
    assert Trunc(350.0 / Turn) == 0;
    assert JsRem(350.0) == 350.0;
    assert Normalise(-10.0) == 350.0;
    assert Wrap(180.0) == 180.0 && Wrap(-180.0) == -180.0;
  }

  /** The per-quantity state a panel keeps between renders: the cumulative
      rotation (the ref cell) and the last bearing it was updated with (the
      effect's dependency). */
  datatype Tracker = Tracker(cumulative: real, observed: real)

  /** The cumulative rotation names the last observed bearing. */
  predicate Consistent(t: Tracker) {
    Congruent(t.cumulative, t.observed)
  }

  /** A consistent tracker's cumulative value reads the same as the
      bearing it last observed. */
  lemma ReadoutsAgree(t: Tracker)
    ensures Consistent(t) ==> Readout(t.cumulative) == Readout(t.observed)
  {
    if Consistent(t) {
      ReadoutOfCongruent(t.cumulative, t.observed);
    }
  }

  /** First render: the ref is seeded with the bearing and the mount effect
      immediately unwraps that same bearing against it.  A seed in [0, 360)
      is kept as is; any other seed still names its own direction. */
  function Mount(seed: real): (t: Tracker)
    ensures t.observed == seed && Consistent(t)
    ensures 0.0 <= seed < Turn ==> t.cumulative == seed
  {
    Tracker(UnwrapAngle(seed, seed), seed)
  }

  /** A later render with bearing `raw`: the effect runs only when `raw`
      differs from the bearing it last ran with. */
  function Observe(t: Tracker, raw: real): (u: Tracker)
    ensures u.observed == raw
    ensures raw == t.observed ==> u == t
    ensures raw != t.observed ==> Congruent(u.cumulative, raw)
    ensures Consistent(t) ==> Consistent(u)
  {
    if raw == t.observed then t else Tracker(UnwrapAngle(t.cumulative, raw), raw)
  }

  /** The cumulative values a tracker passes through while observing
      `raws` in order, starting with its current value. */
  function Path(t: Tracker, raws: seq<real>): (p: seq<real>)
    ensures |p| == |raws| + 1 && p[0] == t.cumulative
    ensures forall i :: 0 <= i < |raws| ==>
      p[i + 1] == (if raws[i] == (if i == 0 then t.observed else raws[i - 1]) then p[i]
                   else UnwrapAngle(p[i], raws[i]))
    decreases |raws|
  {
    if |raws| == 0 then [t.cumulative]
    else
      var rest := Path(Observe(t, raws[0]), raws[1..]);
      assert forall i :: 0 < i < |raws| ==> raws[i] == raws[1..][i - 1];
      [t.cumulative] + rest
  }

  /** Every value along the path names the bearing observed to reach it. */
  lemma {:induction false} PathFollowsBearings(t: Tracker, raws: seq<real>)
    requires Consistent(t)
    ensures forall i :: 0 <= i < |raws| ==> Congruent(Path(t, raws)[i + 1], raws[i])
    decreases |raws|
  {
    if |raws| > 0 {
      var u := Observe(t, raws[0]);
      PathFollowsBearings(u, raws[1..]);
      forall i | 0 <= i < |raws|
        ensures Congruent(Path(t, raws)[i + 1], raws[i])
      {
        if i > 0 {
          assert Path(t, raws)[i + 1] == Path(u, raws[1..])[i];
        }
      }
    }
  }

  /** With bearings in [0, 360), every step taken from a non-negative
      cumulative value is at most half a turn.  Steps taken from a negative
      value are not covered: see `PathReachesLongStep`. */
  lemma {:induction false} PathStepsShortWhileNonNegative(t: Tracker, raws: seq<real>)
    requires forall i :: 0 <= i < |raws| ==> 0.0 <= raws[i] < Turn
    ensures forall i :: 0 <= i < |raws| && 0.0 <= Path(t, raws)[i] ==>
      -HalfTurn <= Path(t, raws)[i + 1] - Path(t, raws)[i] <= HalfTurn
    decreases |raws|
  {
    if |raws| > 0 {
      var u := Observe(t, raws[0]);
      PathStepsShortWhileNonNegative(u, raws[1..]);
      forall i | 0 <= i < |raws| && 0.0 <= Path(t, raws)[i]
        ensures -HalfTurn <= Path(t, raws)[i + 1] - Path(t, raws)[i] <= HalfTurn
      {
        if i > 0 {
          assert Path(t, raws)[i] == Path(u, raws[1..])[i - 1];
          assert Path(t, raws)[i + 1] == Path(u, raws[1..])[i];
        }
      }
    }
  }

  /** Bearings in [0, 360) drive the as-written update negative, and from
      there it takes a 329-degree step: seeded with 10 and then fed 350,
      200, 30 and 359, the cumulative value runs 10, -10, -160, -330, -1. */
  lemma PathReachesLongStep()
    ensures Path(Mount(10.0), [350.0, 200.0, 30.0, 359.0]) == [10.0, -10.0, -160.0, -330.0, -1.0]
  {
    var t0 := Mount(10.0);
    assert t0 == Tracker(10.0, 10.0);
    var t1 := Observe(t0, 350.0);
    assert t1 == Tracker(-10.0, 350.0);
    var t2 := Observe(t1, 200.0);
    assert t2 == Tracker(-160.0, 200.0);
    var t3 := Observe(t2, 30.0);
    assert t3 == Tracker(-330.0, 30.0);
    var t4 := Observe(t3, 359.0);
    assert t4 == Tracker(-1.0, 359.0);
    assert Path(t4, []) == [-1.0];
    assert Path(t3, [359.0]) == [-330.0, -1.0];
    assert Path(t2, [30.0, 359.0]) == [-160.0, -330.0, -1.0];
    assert Path(t1, [200.0, 30.0, 359.0]) == [-10.0, -160.0, -330.0, -1.0];
  }
}

=== FILE: windrose.dfy ===
/** The wind rose panel: three tracked bearings (ship heading, true wind,
    apparent wind), a ship silhouette, two wind arrows, and a rotation mode
    that decides whether the ship or the dial turns with the heading. */
module Windrose {
  import opened Wrappers
  import opened Angles
  import opened Unwrap
  import opened Config
  import opened Series
  import opened Geometry

  /** A point given by its distance from the centre and its angle in
      radians, before projection. */
  datatype PolarPoint = PolarPoint(distance: real, angle: real)

  /** `polarToCartesian` of the wind rose, which puts angle 0 above the
      centre. */
  function Project(t: Trig, p: PolarPoint): (q: Point)
    requires ValidTrig(t)
    ensures q.x * q.x + q.y * q.y == p.distance * p.distance
    ensures p.angle == 0.0 ==> q == Point(0.0, -p.distance)
  {
    PolarToCartesian(ZeroUp, t, p.distance, p.angle)
  }

  /** A wind arrow: a notched arrowhead (inner point, one outer barb, the
      notch, the other outer barb) and a one-letter label on the same ray. */
  datatype WindArrow = WindArrow(outline: seq<PolarPoint>, labelAt: PolarPoint, labelDrop: real,
                                 fontSize: real, letter: string)

  /** Angular width of the arrowhead, in radians. */
  const ArrowWidth: real := 0.2

  /** `renderWindArrow`: the inner point at 0.4, the notch at 0.85 and the
      barbs at 0.9 of the radius, the barbs 0.1 radians either side of the
      arrow's angle, and the label at 0.75 of the radius on the arrow's
      ray.  For a positive radius the four distances are strictly ordered.
      The angle is in radians: the conversion from degrees happens outside
      (both arrows are drawn at 0, which is 0 in either unit). */
  function WindArrowShape(radius: real, angleRad: real, letter: string): (a: WindArrow)
    ensures |a.outline| == 4 && a.letter == letter
    ensures a.outline[0].angle == angleRad && a.outline[2].angle == angleRad && a.labelAt.angle == angleRad
    ensures a.outline[1].angle == angleRad + 0.1 && a.outline[3].angle == angleRad - 0.1
    ensures a.outline[1].distance == a.outline[3].distance
    ensures a.outline[0].distance == radius * 0.4 && a.labelAt.distance == radius * 0.75
    ensures a.outline[2].distance == radius * 0.85 && a.outline[1].distance == radius * 0.9
    ensures a.labelDrop == radius * 0.025 && a.fontSize == radius * 0.075
    ensures radius > 0.0 ==>
      0.0 < a.outline[0].distance < a.labelAt.distance < a.outline[2].distance < a.outline[1].distance
    ensures radius > 0.0 ==> a.outline[1].distance < DialFace(radius).bezelRadius
  {
    var rOuter := radius * 0.9;
    var rNotch := radius * 0.85;
    var rInner := radius * 0.4;
    var rText := radius * 0.75;
    var pNotch := PolarPoint(rNotch, angleRad);
    var pOuter1 := PolarPoint(rOuter, angleRad - ArrowWidth / 2.0);
    var pOuter2 := PolarPoint(rOuter, angleRad + ArrowWidth / 2.0);
    var pInner := PolarPoint(rInner, angleRad);
    WindArrow([pInner, pOuter2, pNotch, pOuter1], PolarPoint(rText, angleRad), radius * 0.025, radius * 0.075, letter)
  }

  /** Drawn at angle 0, as the panel draws both arrows before rotating
      their layers, the arrow is symmetric about the vertical axis: the
      barbs mirror each other and the inner point and notch lie on the axis,
      above the centre. */
  lemma WindArrowSymmetric(t: Trig, radius: real, letter: string)
    requires ValidTrig(t)
    requires radius > 0.0
    ensures var a := WindArrowShape(radius, 0.0, letter);
      && Project(t, a.outline[1]).x == -Project(t, a.outline[3]).x
      && Project(t, a.outline[1]).y == Project(t, a.outline[3]).y
      && Project(t, a.outline[0]) == Point(0.0, -radius * 0.4)
      && Project(t, a.outline[2]) == Point(0.0, -radius * 0.85)
  {
  }

  /** The rotation, in degrees, of each layer of the rose. */
  datatype LayerRotations = LayerRotations(ship: real, dial: real, trueWind: real, apparentWind: real)

  /** The mode-dependent layer transforms.  With either mode set, the ship
      and each wind arrow stand at their own angle relative to the dial;
      `'rotate-ship'` keeps the dial still and `'rotate-dial'` keeps the ship
      pointing up.  With the mode unset neither ship nor dial turns, while
      the arrows still turn by their own angles. */
  function Layers(mode: Option<RotationMode>, heading: real, trueWind: real, apparentWind: real): (l: LayerRotations)
    ensures mode.Some? ==>
      l.ship - l.dial == heading && l.trueWind - l.dial == trueWind && l.apparentWind - l.dial == apparentWind
    ensures mode == Some(RotateShip) ==> l.dial == 0.0
    ensures mode == Some(RotateDial) ==> l.ship == 0.0
    ensures mode.None? ==>
      l.ship == 0.0 && l.dial == 0.0 && l.trueWind == trueWind && l.apparentWind == apparentWind
  {
    match mode
    case Some(RotateShip) => LayerRotations(heading, 0.0, trueWind, apparentWind)
    case Some(RotateDial) => LayerRotations(0.0, -heading, trueWind - heading, apparentWind - heading)
    case None => LayerRotations(0.0, 0.0, trueWind, apparentWind)
  }

  /** Where the wind rose draws a cardinal label: N straight above the
      centre. */
  function LabelPosition(t: Trig, l: Label): (p: Point)
    requires ValidTrig(t)
    ensures l.angle == 0.0 ==> p == Point(0.0, -l.distance)
  {
    Project(t, PolarPoint(l.distance, Radians(t, l.angle)))
  }

  /** The three bearings the rose tracks, each an unwrapping tracker. */
  datatype Trackers = Trackers(heading: Tracker, trueWind: Tracker, apparentWind: Tracker)

  /** Every tracker's cumulative value names its last bearing. */
  predicate AllConsistent(ts: Trackers) {
    Consistent(ts.heading) && Consistent(ts.trueWind) && Consistent(ts.apparentWind)
  }

  /** Mount a tracker, or let it observe on a later render. */
  function Step(prior: Option<Tracker>, raw: real): (t: Tracker)
    ensures t.observed == raw
    ensures prior.None? ==> t == Mount(raw)
    ensures prior.Some? ==> t == Observe(prior.value, raw)
    ensures (prior.None? || Consistent(prior.value)) ==> Consistent(t)
    ensures prior.Some? && 0.0 <= prior.value.cumulative && 0.0 <= raw < Turn ==>
      -HalfTurn <= t.cumulative - prior.value.cumulative <= HalfTurn
  {
    if prior.None? then Mount(raw) else Observe(prior.value, raw)
  }

  /** What one settled render of the wind rose shows. */
  datatype WindroseView =
    | NoData
    | Rose(face: Face, ship: ShipOutline, layers: LayerRotations, labels: seq<Label>,
           minorTicks: seq<Option<TickSpec>>, majorTicks: seq<Option<TickSpec>>,
           apparentArrow: Option<WindArrow>, trueArrow: Option<WindArrow>,
           headingReadout: Option<int>, trueWindReadout: Option<int>, apparentWindReadout: Option<int>)

  /** Every tracker mounts with its bearing on the first render, or
      observes it on a later one. */
  function StepAll(prior: Option<Trackers>, heading: real, trueWind: real, apparent: real): (ts: Trackers)
    ensures ts.heading.observed == heading && ts.trueWind.observed == trueWind
    ensures ts.apparentWind.observed == apparent
    ensures prior.None? ==> ts == Trackers(Mount(heading), Mount(trueWind), Mount(apparent))
    ensures prior.Some? ==> ts == Trackers(Observe(prior.value.heading, heading),
                                           Observe(prior.value.trueWind, trueWind),
                                           Observe(prior.value.apparentWind, apparent))
    ensures (prior.None? || AllConsistent(prior.value)) ==> AllConsistent(ts)
    ensures prior.Some? && 0.0 <= prior.value.heading.cumulative && 0.0 <= heading < Turn ==>
      -HalfTurn <= ts.heading.cumulative - prior.value.heading.cumulative <= HalfTurn
    ensures prior.Some? && 0.0 <= prior.value.trueWind.cumulative && 0.0 <= trueWind < Turn ==>
      -HalfTurn <= ts.trueWind.cumulative - prior.value.trueWind.cumulative <= HalfTurn
    ensures prior.Some? && 0.0 <= prior.value.apparentWind.cumulative && 0.0 <= apparent < Turn ==>
      -HalfTurn <= ts.apparentWind.cumulative - prior.value.apparentWind.cumulative <= HalfTurn
  {
    Trackers(
      Step(if prior.None? then None else Some(prior.value.heading), heading),
      Step(if prior.None? then None else Some(prior.value.trueWind), trueWind),
      Step(if prior.None? then None else Some(prior.value.apparentWind), apparent))
  }

  /** The rose drawn for trackers `ts` on a dial of the given radius.
      Layers turn by the unwrapped bearings; each arrow is drawn exactly
      when its field option is set and non-empty; readouts show the raw
      bearings the trackers last observed and, for consistent trackers,
      name the same directions as the unwrapped values. */
  function RoseView(o: PanelOptions, radius: real, ts: Trackers): (v: WindroseView)
    ensures v.Rose?
    ensures v.face == DialFace(radius) && v.ship == ShipShape(radius)
    ensures v.labels == CardinalLabels(Enabled(o.showLabels), radius)
    ensures v.minorTicks == MinorRing(radius) && v.majorTicks == MajorRing(radius, Enabled(o.showLabels))
    ensures Present(o.apparentWindField) ==> v.apparentArrow == Some(WindArrowShape(radius, 0.0, "A"))
    ensures Present(o.trueWindField) ==> v.trueArrow == Some(WindArrowShape(radius, 0.0, "T"))
    ensures v.layers == Layers(o.rotationMode, ts.heading.cumulative, ts.trueWind.cumulative,
                               ts.apparentWind.cumulative)
    ensures o.rotationMode.Some? ==>
      && v.layers.ship - v.layers.dial == ts.heading.cumulative
      && v.layers.trueWind - v.layers.dial == ts.trueWind.cumulative
      && v.layers.apparentWind - v.layers.dial == ts.apparentWind.cumulative
    ensures (v.apparentArrow.Some? <==> Present(o.apparentWindField))
    ensures (v.trueArrow.Some? <==> Present(o.trueWindField))
    ensures (v.headingReadout.Some? <==> Enabled(o.showHeadingValue))
    ensures (v.trueWindReadout.Some? <==> Enabled(o.showHeadingValue) && Present(o.trueWindField))
    ensures (v.apparentWindReadout.Some? <==> Enabled(o.showHeadingValue) && Present(o.apparentWindField))
    ensures v.headingReadout.Some? ==> v.headingReadout.value == Readout(ts.heading.observed)
    ensures v.trueWindReadout.Some? ==> v.trueWindReadout.value == Readout(ts.trueWind.observed)
    ensures v.apparentWindReadout.Some? ==> v.apparentWindReadout.value == Readout(ts.apparentWind.observed)
    ensures AllConsistent(ts) ==>
      && (v.headingReadout.Some? ==> v.headingReadout.value == Readout(ts.heading.cumulative))
      && (v.trueWindReadout.Some? ==> v.trueWindReadout.value == Readout(ts.trueWind.cumulative))
      && (v.apparentWindReadout.Some? ==> v.apparentWindReadout.value == Readout(ts.apparentWind.cumulative))
  {
    var show := Enabled(o.showHeadingValue);
    var labels := Enabled(o.showLabels);
    ReadoutsAgree(ts.heading);
    ReadoutsAgree(ts.trueWind);
    ReadoutsAgree(ts.apparentWind);
    Rose(
      DialFace(radius), ShipShape(radius),
      Layers(o.rotationMode, ts.heading.cumulative, ts.trueWind.cumulative, ts.apparentWind.cumulative),
      CardinalLabels(labels, radius), MinorRing(radius), MajorRing(radius, labels),
      if Present(o.apparentWindField) then Some(WindArrowShape(radius, 0.0, "A")) else None,
      if Present(o.trueWindField) then Some(WindArrowShape(radius, 0.0, "T")) else None,
      if show then Some(Readout(ts.heading.observed)) else None,
      if show && Present(o.trueWindField) then Some(Readout(ts.trueWind.observed)) else None,
      if show && Present(o.apparentWindField) then Some(Readout(ts.apparentWind.observed)) else None)
  }

  /** With labels shown the rose carries N, E, S and W and 48 drawn
      ticks, none of them under a label; without labels it carries 52
      ticks and no label. */
  lemma RoseTicksClearOfLabels(o: PanelOptions, radius: real, ts: Trackers)
    ensures var v := RoseView(o, radius, ts);
      && (Enabled(o.showLabels) ==> |v.labels| == 4 && CountDrawn(v.minorTicks) + CountDrawn(v.majorTicks) == 48)
      && (!Enabled(o.showLabels) ==> |v.labels| == 0 && CountDrawn(v.minorTicks) + CountDrawn(v.majorTicks) == 52)
      && (forall i, k :: 0 <= i < |v.majorTicks| && v.majorTicks[i].Some? && 0 <= k < |v.labels| ==>
            v.majorTicks[i].value.angle != v.labels[k].angle)
      && (forall i, k :: 0 <= i < |v.minorTicks| && v.minorTicks[i].Some? && 0 <= k < |v.labels| ==>
            v.minorTicks[i].value.angle != v.labels[k].angle)
  {
    RingCounts(radius);
    LabelsClearOfTicks(radius, Enabled(o.showLabels));
  }

  /** One render of the wind rose, after its three effects have run: the
      trackers update even when there is no data to draw, and the rose is
      drawn from their new values. */
  function WindroseRender(o: PanelOptions, series: seq<Frame>, width: real, height: real,
                          prior: Option<Trackers>): (res: (Trackers, WindroseView))
    ensures res.0.heading.observed == LatestOrZero(series, o.headingField)
    ensures res.0.trueWind.observed == LatestOrZero(series, o.trueWindField)
    ensures res.0.apparentWind.observed == LatestOrZero(series, o.apparentWindField)
    ensures res.0 == StepAll(prior, LatestOrZero(series, o.headingField), LatestOrZero(series, o.trueWindField),
                             LatestOrZero(series, o.apparentWindField))
    ensures (prior.None? || AllConsistent(prior.value)) ==> AllConsistent(res.0)
    ensures prior.Some? && 0.0 <= prior.value.heading.cumulative && 0.0 <= LatestOrZero(series, o.headingField) < Turn ==>
      -HalfTurn <= res.0.heading.cumulative - prior.value.heading.cumulative <= HalfTurn
    ensures prior.Some? && 0.0 <= prior.value.trueWind.cumulative && 0.0 <= LatestOrZero(series, o.trueWindField) < Turn ==>
      -HalfTurn <= res.0.trueWind.cumulative - prior.value.trueWind.cumulative <= HalfTurn
    ensures prior.Some? && 0.0 <= prior.value.apparentWind.cumulative
                        && 0.0 <= LatestOrZero(series, o.apparentWindField) < Turn ==>
      -HalfTurn <= res.0.apparentWind.cumulative - prior.value.apparentWind.cumulative <= HalfTurn
    ensures res.1.NoData? <==> |series| == 0
    ensures res.1.Rose? ==> res.1 == RoseView(o, DialRadius(width, height), res.0)
  {
    var heading := LatestOrZero(series, o.headingField);
    var trueWind := LatestOrZero(series, o.trueWindField);
    var apparent := LatestOrZero(series, o.apparentWindField);
    var ts := StepAll(prior, heading, trueWind, apparent);
    if |series| == 0 then (ts, NoData) else (ts, RoseView(o, DialRadius(width, height), ts))
  }
}

=== FILE: wrappers.dfy ===
/** The optional-value datatype used for JavaScript's `undefined`/`null`
    results and for options a panel user may leave unset. */
module Wrappers {

  datatype Option<+T> = None | Some(value: T) {

    /** The `??` operator: the wrapped value, or `default` when absent. */
    function GetOr(default: T): (r: T)
      ensures Some? ==> r == value
      ensures None? ==> r == default
    {
      match this
      case Some(v) => v
      case None => default
    }
  }
}
